=== FILE: README.md ===
# PDF toolbox: page-selection pipeline

A Dafny model of the document logic of `app.py`, a Streamlit PDF toolbox
with four operations: unlock, lock, merge, and extract / reorder.

A document is a sequence of pages of an opaque type `P`. The PDF library
(PyPDF2) is reduced to what the operations observe of a file:
- whether it parses (`Corrupt` or `Pdf`);
- whether it is encrypted;
- what `decrypt(password)` answers;
- its pages.

Each operation answers with a `Response`:
- `Idle` while one of its inputs is still missing;
- `Rejected(error)` when it shows an error message and stops;
- `Produced(document)` when it offers a document for download.

Modules:

- `Wrappers`: `Option` and `Result`.
- `Text`: the text handling the parser needs.
  - `str.split(sep)` for a one-character separator, with `Join` as its inverse.
  - Base-ten `int()`: surrounding whitespace, an optional sign, then ASCII digits.
  - `str(n)` rendering (`Decimal`) as the inverse of `int()`.
- `RangeSpec`: reading a page-range specification such as `2-4,1`.
  - The text is split on commas.
  - Each token is either a single number or an inclusive `start-end` span.
  - `Selector`, `Render` and `RenderSpec` describe the specification a user types, so the parser can be stated as a round trip.
- `Selection`: dropping the numbers that name no page, and picking the source page for each number that is left.
- `Transformer`: the four operations and the properties that connect them, including the 32-byte password padding that decides which passwords open a locked document.
- `Scenarios`: the four examples the page-range prompt offers (`1-5`, `1,3,5`, `3,1,2`, `2-4,1`) on a five-page document, a number that names no page, and malformed inputs, each pinned to its exact outcome.

## Model

| member | source | states |
|---|---|---|
| `Text.Split` | app.py:161 | `s.split(sep)` always yields at least one piece, even for empty text. |
| `Text.SplitCount` | app.py:161 | There is exactly one more piece than there are separators in the text. |
| `Text.SplitPiecesFree` | app.py:161 | No piece produced by `split(",")` contains a comma. |
| `Text.JoinSplit` | app.py:161 | Joining the split pieces with the separator gives back the original text, so splitting loses nothing. |
| `Text.SplitJoin` | app.py:161 | Splitting a join of non-empty, separator-free pieces gives back exactly those pieces. |
| `Text.SplitAppend` | app.py:161 | The pieces of `a + sep + b` are the pieces of `a` followed by the pieces of `b`. |
| `Text.TrimStart` | app.py:167 | The result is a suffix of the input. Everything removed is whitespace, and the result does not start with whitespace. |
| `Text.TrimEnd` | app.py:167 | The result is a prefix of the input. Everything removed is whitespace, and the result does not end with whitespace. |
| `Text.ParseInt` | app.py:167 | The result is never negative when the text holds no `-`. |
| `Text.StripParts` | app.py:167 | The text `int()` reads is the input with whitespace removed from both ends and nothing else removed. |
| `Text.ParseIntAccepts` | app.py:164-167 | Whitespace, an optional `+` or `-`, one or more ASCII digits and whitespace read as the signed value of the digits. Leading zeros and a `+` sign are accepted, so `01` and `+5` read as 1 and 5. |
| `Text.ParseIntShape` | app.py:164-167 | Every text that reads as a number has that shape. Any other text, such as `1x` or `abc`, is rejected. |
| `Text.ParseIntExact` | app.py:164-167 | `int(s)` is `v` exactly when `s` is whitespace, an optional sign, digits whose signed value is `v`, and whitespace. |
| `Text.ParseDecimal` | app.py:164-167 | A rendered number with any whitespace around it reads back as that number. |
| `Text.ParseCanonical` | app.py:167 | The canonical numeral of `n` reads back as `n`. |
| `Text.ParseNegativeDecimal` | app.py:167 | A `-` before a numeral, with optional surrounding whitespace, reads as the negated number. |
| `Text.ParseBlank` | app.py:167 | Empty or all-whitespace text is not a number. |
| `Text.SeparatorNotSkipped` | app.py:167 | Text that starts with an information separator (characters 28-31) is not a number, because `int()` does not skip them. |
| `RangeSpec.Interval` | app.py:165 | `range(start, end + 1)` has `end - start + 1` elements, or none. Element `i` is `start + i`. |
| `RangeSpec.ParseSingle` | app.py:166-167 | A token without `-` succeeds exactly when `int()` accepts it, and then contributes that one number. |
| `RangeSpec.ParseSpan` | app.py:163-165 | A token that does not split on `-` into exactly two sides is rejected. A span contributes only non-negative numbers. |
| `RangeSpec.ParseToken` | app.py:162-167 | A failure names the offending token. Every number contributed is non-negative. |
| `RangeSpec.ParseTokens` | app.py:160-167 | The token list reads successfully exactly when every token does. All numbers read are non-negative. |
| `RangeSpec.ParseSpec` | app.py:160-167 | The specification reads successfully exactly when every comma-separated token does. A failure names a token of the specification that does not parse. All numbers read are non-negative. |
| `RangeSpec.SpanToken` | app.py:163-165 | `lo-hi` gives the inclusive span when both sides read as numbers, and is rejected with that token otherwise. |
| `RangeSpec.PaddedSpanToken` | app.py:164 | Whitespace around either side of a span is accepted. |
| `RangeSpec.DescendingSpanEmpty` | app.py:165 | A span whose start exceeds its end contributes nothing and is not an error. |
| `RangeSpec.LeadingMinusRejected` | app.py:163-164 | A token that starts with `-` is rejected. A negative page number is a syntax error. |
| `RangeSpec.ManyDashesRejected` | app.py:164 | A token with two or more `-` is rejected, because the unpacking needs exactly two sides. |
| `RangeSpec.ParseTokensAppend` | app.py:160-167 | Reading `p + q` concatenates the numbers of `p` and `q` in order. If either fails, the first failure is the result. |
| `RangeSpec.ParseSpecAppend` | app.py:161-167 | Reading `a,b` is reading `a` and then `b`, so token order and duplicates are kept. |
| `RangeSpec.EmptySpecRejected` | app.py:161-167 | The empty specification is one empty token, which is rejected. |
| `RangeSpec.TrailingCommaRejected` | app.py:161-167 | A specification ending in a comma is rejected, whatever comes before the comma. |
| `RangeSpec.ParseRenderedSingle` | app.py:166-167 | A rendered page number reads back as that one number. |
| `RangeSpec.ParseRenderedSpan` | app.py:163-165 | A rendered span `a-b` reads back as `range(a, b + 1)`. |
| `RangeSpec.ParseRenderedToken` | app.py:162-167 | A rendered selector contains no comma and reads back as its own expansion. |
| `RangeSpec.ParseRenderedTokens` | app.py:160-167 | A list of rendered selectors reads back as their concatenated expansions. |
| `RangeSpec.ParseRenderedSpec` | app.py:155-167 | Round trip: the comma-joined rendering of a non-empty selector list parses to the selectors' expansion, in order. |
| `Selection.KeepInRange` | app.py:169 | Every kept number lies in `1..total`. Every in-range value keeps its multiplicity. The result is a subsequence of the input. |
| `Selection.KeepInRangeAll` | app.py:169 | A list that already lies in `1..total` passes the filter unchanged. |
| `Selection.KeepInRangeIdempotent` | app.py:169 | Filtering twice is the same as filtering once. |
| `Selection.KeepInRangeAppend` | app.py:169 | Filtering a concatenation is the concatenation of the filtered parts. |
| `Selection.KeepInRangeEmpty` | app.py:169-173 | The filtered list is empty exactly when no input number names a page. |
| `Selection.Assemble` | app.py:175-177 | There is one output page per number, and output page `i` is source page `order[i] - 1`. |
| `Selection.AssembleIdentity` | app.py:175-177 | Selecting pages `1..n` of an `n`-page document gives it back unchanged. |
| `Selection.AssembleInOrder` | app.py:175-177 | Any order that lists every page once, first to last, gives back the source. |
| `Selection.AssembleCompose` | app.py:175-177 | Reordering the output again equals one reordering by the composed order. |
| `Selection.AssembleAppend` | app.py:175-177 | Assembling a concatenated order concatenates the assembled parts. |
| `Transformer.ReadPages` | app.py:121-122 | A file's pages can be read exactly when it parses and, if encrypted, opens with the empty password. Then they are the file's pages; otherwise the error is `UnreadablePdf`. |
| `Transformer.Unlock` | app.py:24-36 | Unlock is idle exactly when the file or the password is missing. An unparsable file gives `UnreadablePdf`. A parsed file is refused exactly when it is encrypted and `decrypt` answers 0. Otherwise the result has the same pages in order and no password. |
| `Transformer.Lock` | app.py:67-88 | Lock is idle exactly when an input is missing. Differing passwords give `PasswordMismatch`. Equal passwords produce a document exactly when the file's pages can be read, and that document holds those pages protected by the password. |
| `Transformer.LockThenUnlock` | app.py:24-88 | Locking with a Latin-1 password and unlocking with the same password gives back the original pages, in order, unprotected. |
| `Transformer.LockedRefusesOwnWidePassword` | app.py:24-88 | A password with a character beyond one byte among its first 32 does not unlock the file it locked: unlock reports a wrong password. |
| `Transformer.PadLockText` | app.py:88 | The writer cuts the password text to 32 characters or fills it up from the padding string, read as text, before encoding. |
| `Transformer.WriterKey` | app.py:88 | The writer's key input is 32 bytes exactly when the password's first 32 characters are Latin-1, and longer otherwise. |
| `Transformer.WriterKeyMatchesReader` | app.py:88 | For a Latin-1 password, padding then encoding (writer) and encoding then padding (reader) give the same 32 bytes. |
| `Transformer.Reopen` | app.py:88 | Reopening a written document gives its pages. It is encrypted exactly when the document has a password. A password opens it exactly when the reader's 32 bytes for it equal the writer's key input. |
| `Transformer.Utf8` | app.py:88 | The UTF-8 encoding is never shorter than the text, and is longer exactly when some character is outside ASCII. |
| `Transformer.EncodePassword` | app.py:88 | A password whose characters all fit in one byte is encoded one byte per character. Any other password takes more bytes than characters. |
| `Transformer.PadPassword` | app.py:88 | The padded password is 32 bytes: the password's first bytes, then the standard padding string. |
| `Transformer.PadPasswordDistinct` | app.py:88 | Two different passwords of at most 31 bytes never pad to the same 32 bytes. |
| `Transformer.LockedRejectsOtherPassword` | app.py:28-32 | A document locked with a one-byte-per-character password of at most 31 characters refuses every other such password. |
| `Transformer.LockedAcceptsSharedPrefix` | app.py:28-32 | A document locked with a password of 32 or more one-byte characters also opens with any password that shares its first 32 characters. |
| `Transformer.ConcatAppend` | app.py:118-123 | The concatenated pages respect splitting the file list at any point. |
| `Transformer.ConcatLength` | app.py:118-123 | The merged page count is the sum of the files' page counts. |
| `Transformer.ConcatTwo` | app.py:118-123 | Merging two files puts every page of the first before every page of the second. |
| `Transformer.Merge` | app.py:117-123 | Merge is idle exactly when nothing is uploaded. It is rejected exactly when some file cannot be read. Otherwise the result holds every file's pages, file after file in upload order, and its length is the total page count. |
| `Transformer.SelectPages` | app.py:169-177 | The selection is rejected with `EmptySelection` exactly when no number names a page. Otherwise it holds the in-range numbers' pages, in order and with repetitions; every page comes from the source and there is no password. |
| `Transformer.ExtractReorder` | app.py:158-183 | Extract is idle exactly when the specification is empty. It is rejected as `InvalidRangeSyntax` exactly when some comma-separated token does not parse. It is rejected as `EmptySelection` exactly when the specification parses but no number names a page. No other rejection occurs. It produces a document exactly when the specification parses and some number names a page. That document is the pages of the in-range numbers, in order and with repetitions, and has no password. |
| `Transformer.SelectInRange` | app.py:169-177 | When every page number names a page, the output is exactly those pages in that order. |
| `Transformer.ExtractWholeDocument` | app.py:160-177 | The specification `1-n` reproduces an `n`-page document. |
| `Transformer.ExtractRendered` | app.py:160-177 | A rendered selector list with some in-range number produces the pages of its in-range expansion. |
| `Scenarios.WholeFivePages` | app.py:155-177 | `1-5` on five pages outputs the document unchanged. |
| `Scenarios.PickOneThreeFive` | app.py:155-177 | `1,3,5` on five pages outputs pages 1, 3, 5. |
| `Scenarios.ReorderThreeOneTwo` | app.py:155 | `3,1,2` on five pages outputs pages 3, 1, 2. |
| `Scenarios.ReorderSpanThenOne` | app.py:155 | `2-4,1` on five pages outputs pages 2, 3, 4, 1. |
| `Scenarios.OutOfRangeIsEmptySelection` | app.py:169-173 | `99` on five pages is an empty selection. |
| `Scenarios.WordIsInvalidSyntax` | app.py:167 | `abc` is a syntax error. |
| `Scenarios.NegativeIsInvalidSyntax` | app.py:163-164 | `-3` is a syntax error, not an empty selection. |
| `Scenarios.TrailingCommaIsInvalidSyntax` | app.py:161-167 | `1,` is a syntax error. |
| `Scenarios.ThreeSidedSpanIsInvalidSyntax` | app.py:164 | `1-2-3` is a syntax error. |
| `Scenarios.SeparatorIsInvalidSyntax` | app.py:167 | A page number preceded by character 28 is a syntax error. |

## Left out

- The Streamlit user interface is not modelled: page layout, the sidebar, messages, download buttons and temporary-stream cleanup. A message followed by `st.stop()` becomes `Rejected` with the reason. An `if` that waits for input becomes `Idle`.
- Lock's "start encryption" button (app.py:72) is not modelled. `Lock` describes the run in which the button has been pressed.
- Lock's warning for an already encrypted file (app.py:77-81) is not modelled. It only prints a message. Reading the pages then succeeds or fails as for any file opened without a password.
- `BytesIO` and `PdfWriter.write` are not modelled, because they are I/O. A written document is its pages plus an optional password.
- The PDF library is not modelled beyond parse, encryption, decrypt and pages. Opening an encrypted file tries the empty password, and its pages can be read only if that succeeds. A file that does not parse, or whose pages cannot be read, becomes `UnreadablePdf`.
- Writing the output document is not modelled and never fails in the model. An exception raised inside `decrypt` (app.py:29) is not modelled either: `decrypt` is a total function, so `Unlock` has no outcome for it.
- `Transformer.Reopen` describes the default encryption of PyPDF2 3.0: RC4 with the password as both user and owner password. The writer pads the password as text to 32 characters and then encodes it, as Latin-1 when possible and UTF-8 otherwise. The reader encodes a given password the same way and then pads the bytes to 32 (Algorithm 2 of ISO 32000-1, section 7.6.3.3). A password opens the file exactly when the two sides give the same bytes; the two orders agree for Latin-1 passwords only. This order of steps follows the library's `_security` module, which is not part of this model. Hash collisions between different padded passwords are ignored, and the RC4 and MD5 steps themselves are not modelled.
- `Transformer.ExtractReorder` takes the source pages already read. The `PdfReader` call at app.py:150 sits outside the `try` block, so an unreadable upload there is an uncaught crash, not a modelled outcome.
- `Text.ParseInt` does not accept underscores between digits (`1_0`), non-ASCII Unicode digits or non-ASCII Unicode whitespace, all of which Python's `int()` accepts. For such input the model reports a syntax error where the program would read a number.
- `Text.ParseInt` has no limit on the number of digits. Python 3.11 and later, and the security releases 3.7.14 to 3.10.7, reject numerals of more than 4300 digits, leading zeros included, by default; the limit can be configured. `Text.ParseCanonical`, `Text.ParseDecimal`, `Text.ParseNegativeDecimal` and the `RangeSpec.ParseRendered*` round trips inherit this: they hold for the interpreter without the limit, and for numerals of at most 4300 digits otherwise.
- `RangeSpec.Interval` assumes unbounded memory. At app.py:165 the program builds the whole span as a list before filtering it, so a huge span such as `1-1000000000000` raises `MemoryError`, which app.py:194 reports as a failure with no document. The model instead filters the span and produces the in-range pages; `RangeSpec.ParseSpan`, `RangeSpec.ParseSpec` and `Transformer.ExtractReorder` inherit this.
- `RangeSpec.ParseToken` and `RangeSpec.ParseTokens` report failure as a `BadToken` value, not the text of Python's exception. The error message shown to the user is not modelled.

Three behaviours of the code worth noting:

- `Transformer.Unlock` requires a non-empty password even for a file that is not encrypted (app.py:24). On such a file any non-empty password succeeds.
- `Transformer.Merge` runs with a single uploaded file (app.py:117), which just copies that file's pages.
- `Transformer.LockedRefusesOwnWidePassword`: a file locked at app.py:88 with a password such as `密碼` cannot be unlocked at app.py:29 with that same password, because the writer and the reader of the library derive different key bytes from it.

=== FILE: rangespec.dfy ===
/** The page-range specification of the extract / reorder operation
    (app.py:160-167): a comma-separated list of tokens, each either a single
    page number or an inclusive `start-end` span, read into one ordered list
    of integers. Token order and duplicates are kept; the first malformed
    token rejects the whole specification. */
module RangeSpec {
  import opened Wrappers
  import opened Text

  /** The value error Python raises on a malformed token (a failed `int()`
      or a `start, end` unpacking of the wrong arity). */
  datatype SyntaxError = BadToken(token: string)

  /** `range(start, end + 1)`: the integers from `start` to `end` inclusive,
      nothing when `start > end`. */
  function Interval(start: int, end: int): (r: seq<int>)
    ensures |r| == if start <= end then end - start + 1 else 0
    ensures forall i :: 0 <= i < |r| ==> r[i] == start + i
    decreases end - start
  {
    if start > end then [] else [start] + Interval(start + 1, end)
  }

  /** A token without `-`: one numeral, contributing exactly one integer. */
  function ParseSingle(token: string): (r: Result<seq<int>, SyntaxError>)
    ensures r.Success? <==> ParseInt(token).Some?
    ensures r.Success? ==> |r.value| == 1 && Some(r.value[0]) == ParseInt(token)
  {
    match ParseInt(token)
    case Some(n) => Success([n])
    case None => Failure(BadToken(token))
  }

  /** A token holding `-`: it must split on `-` into exactly two numerals,
      and contributes the inclusive span between them. Neither side can
      carry a minus sign, so every number contributed is non-negative. */
  function ParseSpan(token: string): (r: Result<seq<int>, SyntaxError>)
    ensures |Split(token, '-')| != 2 ==> r.Failure?
    ensures r.Success? ==> forall k :: 0 <= k < |r.value| ==> r.value[k] >= 0
  {
    var ends := Split(token, '-');
    if |ends| != 2 then Failure(BadToken(token))
    else
      var start := ParseInt(ends[0]);
      var end := ParseInt(ends[1]);
      if start.Some? && end.Some? then
        SplitPiecesFree(token, '-');
        Success(Interval(start.value, end.value))
      else Failure(BadToken(token))
  }

  /** What one comma-separated token contributes: a span when it holds
      `-`, a single number otherwise. */
  function ParseToken(token: string): (r: Result<seq<int>, SyntaxError>)
    ensures r.Failure? ==> r.error == BadToken(token)
    ensures r.Success? ==> forall k :: 0 <= k < |r.value| ==> r.value[k] >= 0
  {
    if '-' in token then ParseSpan(token) else ParseSingle(token)
  }

  /** Every token reads as a number or a span. */
  predicate AllTokensParse(tokens: seq<string>)
  {
    forall i :: 0 <= i < |tokens| ==> ParseToken(tokens[i]).Success?
  }

  /** The tokens in order: each token's contribution appended to the list
      built so far, stopping at the first token that does not parse. */
  function ParseTokens(tokens: seq<string>): (r: Result<seq<int>, SyntaxError>)
    ensures r.Success? <==> AllTokensParse(tokens)
    ensures r.Failure? ==> r.error.token in tokens && ParseToken(r.error.token).Failure?
    ensures r.Success? ==> forall k :: 0 <= k < |r.value| ==> r.value[k] >= 0
    decreases |tokens|
  {
    if |tokens| == 0 then Success([])
    else
      var head :- ParseToken(tokens[0]);
      var tail :- ParseTokens(tokens[1..]);
      Success(head + tail)
  }

  /** The whole specification: split on commas, then read every token. */
  function ParseSpec(spec: string): (r: Result<seq<int>, SyntaxError>)
    ensures r.Success? <==> AllTokensParse(Split(spec, ','))
    ensures r.Failure? ==> r.error.token in Split(spec, ',') && ParseToken(r.error.token).Failure?
    ensures r.Success? ==> forall k :: 0 <= k < |r.value| ==> r.value[k] >= 0
  {
    ParseTokens(Split(spec, ','))
  }

  /* ---------------------------------------------------------------------- */
  /* Properties of single tokens                                             */
  /* ---------------------------------------------------------------------- */

  /** A `start-end` token contributes exactly the inclusive span when both
      sides are numerals, and fails otherwise. */
  lemma SpanToken(lo: string, hi: string)
    requires '-' !in lo && '-' !in hi
    ensures ParseToken(lo + "-" + hi) ==
      if ParseInt(lo).Some? && ParseInt(hi).Some?
      then Success(Interval(ParseInt(lo).value, ParseInt(hi).value))
      else Failure(BadToken(lo + "-" + hi))
  {
    var token := lo + "-" + hi;
    assert Join([lo, hi], '-') == token;
    SplitJoin([lo, hi], '-');
    assert token[|lo|] == '-';
  }

  /** Whitespace around either side of a span is accepted, as `int()`
      accepts it around a number. */
  lemma PaddedSpanToken(lead: string, start: nat, gap1: string, gap2: string, end: nat, trail: string)
    requires AllSpace(lead) && AllSpace(gap1) && AllSpace(gap2) && AllSpace(trail)
    ensures ParseToken(lead + Decimal(start) + gap1 + "-" + gap2 + Decimal(end) + trail) ==
      Success(Interval(start, end))
  {
    var lo := lead + Decimal(start) + gap1;
    var hi := gap2 + Decimal(end) + trail;
    assert lead + Decimal(start) + gap1 + "-" + gap2 + Decimal(end) + trail == lo + "-" + hi;
    SpacesHaveNoDash(lead);
    SpacesHaveNoDash(gap1);
    SpacesHaveNoDash(gap2);
    SpacesHaveNoDash(trail);
    RenderSpanDigitsOnly(start, end);
    SpanToken(lo, hi);
    ParseDecimal(lead, start, gap1);
    ParseDecimal(gap2, end, trail);
  }

  lemma SpacesHaveNoDash(s: string)
    requires AllSpace(s)
    ensures '-' !in s
  {
  }

  /** A span whose start exceeds its end contributes nothing. */
  lemma DescendingSpanEmpty(start: nat, end: nat)
    requires start > end
    ensures ParseToken(Decimal(start) + "-" + Decimal(end)) == Success([])
  {
    ParseRenderedSpan(start, end);
  }

  /** A token that begins with `-` has an empty first side, so a negative
      page number is rejected instead of being filtered out later. */
  lemma {:induction false} LeadingMinusRejected(token: string)
    requires |token| > 0 && token[0] == '-'
    ensures ParseToken(token).Failure?
  {
    assert token == [token[0]] + token[1..];
    var ends := Split(token, '-');
    assert ends == [""] + Split(token[1..], '-');
    ParseBlank("");
  }

  /** A token with two or more `-` has too many sides and is rejected. */
  lemma ManyDashesRejected(a: string, b: string, c: string)
    ensures ParseToken(a + "-" + b + "-" + c).Failure?
  {
    var token := a + "-" + b + "-" + c;
    assert token == a + ['-'] + (b + ['-'] + c);
    SplitAppend(a, b + ['-'] + c, '-');
    SplitAppend(b, c, '-');
    assert token[|a|] == '-';
  }

  /* ---------------------------------------------------------------------- */
  /* Properties of whole specifications                                      */
  /* ---------------------------------------------------------------------- */

  /** Reading two token lists one after the other: the contributions are
      concatenated in order, or the first failure wins. */
  lemma {:induction false} ParseTokensAppend(p: seq<string>, q: seq<string>)
    ensures ParseTokens(p + q) ==
      match ParseTokens(p)
      case Failure(e) => Failure(e)
      case Success(xs) =>
        match ParseTokens(q)
        case Failure(e) => Failure(e)
        case Success(ys) => Success(xs + ys)
    decreases |p|
  {
    if |p| == 0 {
      assert p + q == q;
      match ParseTokens(q)
      case Failure(_) =>
      case Success(ys) => assert [] + ys == ys;
    } else {
      assert (p + q)[0] == p[0];
      assert (p + q)[1..] == p[1..] + q;
      ParseTokensAppend(p[1..], q);
      match ParseToken(p[0])
      case Failure(_) =>
      case Success(h) =>
        match ParseTokens(p[1..])
        case Failure(_) =>
        case Success(t) =>
          match ParseTokens(q)
          case Failure(_) =>
          case Success(ys) =>
            assert h + (t + ys) == (h + t) + ys;
    }
  }

  /** Joining two specifications with a comma concatenates what they read,
      so token order and duplicates are kept. */
  lemma ParseSpecAppend(a: string, b: string)
    ensures ParseSpec(a + "," + b) ==
      match ParseSpec(a)
      case Failure(e) => Failure(e)
      case Success(xs) =>
        match ParseSpec(b)
        case Failure(e) => Failure(e)
        case Success(ys) => Success(xs + ys)
  {
    SplitAppend(a, b, ',');
    ParseTokensAppend(Split(a, ','), Split(b, ','));
  }

  /** An empty specification is one empty token, which `int()` rejects. */
  lemma EmptySpecRejected()
    ensures ParseSpec("").Failure?
  {
    ParseBlank("");
  }

  /** A trailing comma leaves an empty last token, so the whole
      specification is rejected. */
  lemma TrailingCommaRejected(a: string)
    ensures ParseSpec(a + ",").Failure?
  {
    var spec := a + "," + "";
    assert spec == a + ",";
    ParseSpecAppend(a, "");
    EmptySpecRejected();
    assert ParseSpec(spec).Failure?;
  }

  /* ---------------------------------------------------------------------- */
  /* Rendering a selection, the inverse of reading one                       */
  /* ---------------------------------------------------------------------- */

  /** One token as a user writes it. */
  datatype Selector = Single(page: nat) | Span(first: nat, last: nat)

  function Expand(sel: Selector): seq<int>
  {
    match sel
    case Single(n) => [n]
    case Span(a, b) => Interval(a, b)
  }

  function ExpandAll(sels: seq<Selector>): seq<int>
    decreases |sels|
  {
    if |sels| == 0 then [] else Expand(sels[0]) + ExpandAll(sels[1..])
  }

  function Render(sel: Selector): string
  {
    match sel
    case Single(n) => Decimal(n)
    case Span(a, b) => Decimal(a) + "-" + Decimal(b)
  }

  function RenderAll(sels: seq<Selector>): (tokens: seq<string>)
    ensures |tokens| == |sels|
    ensures forall i :: 0 <= i < |sels| ==> tokens[i] == Render(sels[i])
    decreases |sels|
  {
    if |sels| == 0 then [] else [Render(sels[0])] + RenderAll(sels[1..])
  }

  /** The specification a user would type for a list of selectors. */
  function RenderSpec(sels: seq<Selector>): string
  {
    Join(RenderAll(sels), ',')
  }

  lemma RenderSpanDigitsOnly(a: nat, b: nat)
    ensures '-' !in Decimal(a) && '-' !in Decimal(b)
    ensures ',' !in Decimal(a) && ',' !in Decimal(b)
  {
  }

  lemma ParseRenderedSingle(n: nat)
    ensures ParseToken(Decimal(n)) == Success([n])
  {
    RenderSpanDigitsOnly(n, n);
    ParseCanonical(n);
  }

  lemma ParseRenderedSpan(a: nat, b: nat)
    ensures ParseToken(Decimal(a) + "-" + Decimal(b)) == Success(Interval(a, b))
  {
    RenderSpanDigitsOnly(a, b);
    SpanToken(Decimal(a), Decimal(b));
    ParseCanonical(a);
    ParseCanonical(b);
  }

  /** A rendered token reads back as exactly its own contribution. */
  lemma ParseRenderedToken(sel: Selector)
    ensures ParseToken(Render(sel)) == Success(Expand(sel))
    ensures ',' !in Render(sel)
  {
    match sel
    case Single(n) =>
      ParseRenderedSingle(n);
    case Span(a, b) =>
      ParseRenderedSpan(a, b);
      RenderSpanDigitsOnly(a, b);
      assert Render(sel) == Decimal(a) + "-" + Decimal(b);
  }

  lemma {:induction false} ParseRenderedTokens(sels: seq<Selector>)
    ensures ParseTokens(RenderAll(sels)) == Success(ExpandAll(sels))
    decreases |sels|
  {
    if |sels| > 0 {
      ParseRenderedToken(sels[0]);
      ParseRenderedTokens(sels[1..]);
      assert RenderAll(sels)[1..] == RenderAll(sels[1..]);
    }
  }

  /** Round trip: the specification rendered from a non-empty list of
      selectors reads back as the selectors' expansion, in order. */
  lemma ParseRenderedSpec(sels: seq<Selector>)
    requires |sels| >= 1
    ensures ParseSpec(RenderSpec(sels)) == Success(ExpandAll(sels))
  {
    var tokens := RenderAll(sels);
    forall i | 0 <= i < |tokens|
      ensures ',' !in tokens[i]
    {
      ParseRenderedToken(sels[i]);
    }
    SplitJoin(tokens, ',');
    ParseRenderedTokens(sels);
  }
}

=== FILE: scenarios.dfy ===
/** Concrete interactions with the toolbox, each pinned to its exact
    outcome: the four examples the input prompt of app.py:155 offers
    (`1-5`, `1,3,5`, `3,1,2`, `2-4,1`) on a five-page document, a number
    that names no page, and malformed inputs the range parser must refuse. The specification is a
    parameter equal to the literal, so that the parser is unfolded only as
    far as each proof asks. */
module Scenarios {
  import opened Wrappers
  import opened Text
  import opened RangeSpec
  import opened Selection
  import opened Transformer

  lemma PickThree<P>(src: seq<P>, order: seq<int>, a: int, b: int, c: int)
    requires order == [a, b, c] && 1 <= a <= |src| && 1 <= b <= |src| && 1 <= c <= |src|
    ensures PageNumbers(order, |src|)
    ensures Assemble(src, order) == [src[a - 1], src[b - 1], src[c - 1]]
  {
  }

  lemma PickFour<P>(src: seq<P>, order: seq<int>, a: int, b: int, c: int, d: int)
    requires order == [a, b, c, d]
    requires 1 <= a <= |src| && 1 <= b <= |src| && 1 <= c <= |src| && 1 <= d <= |src|
    ensures PageNumbers(order, |src|)
    ensures Assemble(src, order) == [src[a - 1], src[b - 1], src[c - 1], src[d - 1]]
  {
  }

  lemma RenderedWholeFive()
    ensures RenderSpec([Span(1, 5)]) == "1-5"
  {
    assert Decimal(1) == "1" && Decimal(5) == "5";
    assert Render(Span(1, 5)) == "1-5";
    assert RenderAll([Span(1, 5)]) == ["1-5"];
  }

  /** `1-5` on a five-page document gives the document back. */
  lemma WholeFivePages<P>(src: seq<P>, spec: string)
    requires |src| == 5 && spec == "1-5"
    ensures ExtractReorder(src, spec) == Produced(Document(src, None))
  {
    RenderedWholeFive();
    ExtractWholeDocument(src);
  }

  lemma RenderedOneThreeFive()
    ensures RenderSpec([Single(1), Single(3), Single(5)]) == "1,3,5"
    ensures ExpandAll([Single(1), Single(3), Single(5)]) == [1, 3, 5]
  {
    var sels := [Single(1), Single(3), Single(5)];
    assert RenderAll(sels) == ["1", "3", "5"];
    assert ExpandAll(sels[2..]) == [5];
    assert ExpandAll(sels[1..]) == [3, 5];
  }

  lemma ReadsOneThreeFive(spec: string)
    requires spec == "1,3,5"
    ensures ParseSpec(spec) == Success([1, 3, 5])
  {
    RenderedOneThreeFive();
    ParseRenderedSpec([Single(1), Single(3), Single(5)]);
  }

  lemma SelectsOneThreeFive<P>(src: seq<P>, order: seq<int>)
    requires |src| == 5 && order == [1, 3, 5]
    ensures SelectPages(src, order) == Produced(Document([src[0], src[2], src[4]], None))
  {
    PickThree(src, order, 1, 3, 5);
    SelectInRange(src, order);
  }

  /** `1,3,5` on a five-page document gives pages 1, 3, 5. */
  lemma PickOneThreeFive<P>(src: seq<P>, spec: string)
    requires |src| == 5 && spec == "1,3,5"
    ensures ExtractReorder(src, spec) == Produced(Document([src[0], src[2], src[4]], None))
  {
    ReadsOneThreeFive(spec);
    SelectsOneThreeFive(src, [1, 3, 5]);
  }

  lemma RenderedThreeOneTwo()
    ensures RenderSpec([Single(3), Single(1), Single(2)]) == "3,1,2"
    ensures ExpandAll([Single(3), Single(1), Single(2)]) == [3, 1, 2]
  {
    var sels := [Single(3), Single(1), Single(2)];
    assert RenderAll(sels) == ["3", "1", "2"];
    assert ExpandAll(sels[2..]) == [2];
    assert ExpandAll(sels[1..]) == [1, 2];
  }

  lemma ReadsThreeOneTwo(spec: string)
    requires spec == "3,1,2"
    ensures ParseSpec(spec) == Success([3, 1, 2])
  {
    RenderedThreeOneTwo();
    ParseRenderedSpec([Single(3), Single(1), Single(2)]);
  }

  lemma SelectsThreeOneTwo<P>(src: seq<P>, order: seq<int>)
    requires |src| == 5 && order == [3, 1, 2]
    ensures SelectPages(src, order) == Produced(Document([src[2], src[0], src[1]], None))
  {
    PickThree(src, order, 3, 1, 2);
    SelectInRange(src, order);
  }

  /** `3,1,2` on a five-page document gives pages 3, 1, 2 in that order. */
  lemma ReorderThreeOneTwo<P>(src: seq<P>, spec: string)
    requires |src| == 5 && spec == "3,1,2"
    ensures ExtractReorder(src, spec) == Produced(Document([src[2], src[0], src[1]], None))
  {
    ReadsThreeOneTwo(spec);
    SelectsThreeOneTwo(src, [3, 1, 2]);
  }

  lemma RenderedSpanThenOne()
    ensures RenderSpec([Span(2, 4), Single(1)]) == "2-4,1"
    ensures ExpandAll([Span(2, 4), Single(1)]) == [2, 3, 4, 1]
  {
    var sels := [Span(2, 4), Single(1)];
    assert Decimal(2) == "2" && Decimal(4) == "4" && Decimal(1) == "1";
    assert Render(Span(2, 4)) == "2-4";
    assert RenderAll(sels) == ["2-4", "1"];
    assert Interval(2, 4) == [2, 3, 4];
    assert ExpandAll(sels[1..]) == [1];
  }

  lemma ReadsSpanThenOne(spec: string)
    requires spec == "2-4,1"
    ensures ParseSpec(spec) == Success([2, 3, 4, 1])
  {
    RenderedSpanThenOne();
    ParseRenderedSpec([Span(2, 4), Single(1)]);
  }

  lemma SelectsSpanThenOne<P>(src: seq<P>, order: seq<int>)
    requires |src| == 5 && order == [2, 3, 4, 1]
    ensures SelectPages(src, order) == Produced(Document([src[1], src[2], src[3], src[0]], None))
  {
    PickFour(src, order, 2, 3, 4, 1);
    SelectInRange(src, order);
  }

  /** `2-4,1` on a five-page document gives pages 2, 3, 4, 1. */
  lemma ReorderSpanThenOne<P>(src: seq<P>, spec: string)
    requires |src| == 5 && spec == "2-4,1"
    ensures ExtractReorder(src, spec) ==
      Produced(Document([src[1], src[2], src[3], src[0]], None))
  {
    ReadsSpanThenOne(spec);
    SelectsSpanThenOne(src, [2, 3, 4, 1]);
  }

  lemma ReadsNinetyNine(spec: string)
    requires spec == "99"
    ensures ParseSpec(spec) == Success([99])
  {
    assert RenderSpec([Single(99)]) == "99";
    ParseRenderedSpec([Single(99)]);
    assert ExpandAll([Single(99)]) == [99];
  }

  /** `99` on a five-page document names no page: an empty selection. */
  lemma OutOfRangeIsEmptySelection<P>(src: seq<P>, spec: string)
    requires |src| == 5 && spec == "99"
    ensures ExtractReorder(src, spec) == Rejected(EmptySelection)
  {
    ReadsNinetyNine(spec);
  }

  /** `abc` is not a number: a syntax error, whatever the document. */
  lemma WordIsInvalidSyntax<P>(src: seq<P>, spec: string)
    requires spec == "abc"
    ensures ExtractReorder(src, spec) == Rejected(InvalidRangeSyntax)
  {
    SplitFree(spec, ',');
    assert Strip(spec) == spec;
    assert ParseInt(spec) == None;
  }

  /** A negative page number is a syntax error, not an empty selection. */
  lemma NegativeIsInvalidSyntax<P>(src: seq<P>, spec: string)
    requires spec == "-3"
    ensures ExtractReorder(src, spec) == Rejected(InvalidRangeSyntax)
  {
    SplitFree(spec, ',');
    LeadingMinusRejected(spec);
  }

  /** A trailing comma is a syntax error even after a valid page. */
  lemma TrailingCommaIsInvalidSyntax<P>(src: seq<P>, spec: string)
    requires spec == "1,"
    ensures ExtractReorder(src, spec) == Rejected(InvalidRangeSyntax)
  {
    TrailingCommaRejected("1");
  }

  /** `1-2-3` has three sides: a syntax error. */
  lemma ThreeSidedSpanIsInvalidSyntax<P>(src: seq<P>, spec: string)
    requires spec == "1-2-3"
    ensures ExtractReorder(src, spec) == Rejected(InvalidRangeSyntax)
  {
    SplitFree(spec, ',');
    ManyDashesRejected("1", "2", "3");
    assert "1" + "-" + "2" + "-" + "3" == spec;
  }

  /** A page number behind an information separator is a syntax error:
      `int()` does not skip that character. */
  lemma SeparatorIsInvalidSyntax<P>(src: seq<P>, spec: string)
    requires spec == [28 as char, '3']
    ensures ExtractReorder(src, spec) == Rejected(InvalidRangeSyntax)
  {
    SplitFree(spec, ',');
    SeparatorNotSkipped(spec);
    assert ParseToken(spec).Failure? by {
      assert '-' !in spec;
    }
    assert ParseSpec(spec).Failure?;
  }
}

=== FILE: selection.dfy ===
/** The two list steps between reading a page-range specification and
    writing the output document (app.py:169-177): dropping page numbers
    outside the document, and picking the source page for each number
    that is left. Pages are of any type `P`; their content is never
    inspected. */
module Selection {
  import opened RangeSpec

  /** `a` can be obtained from `b` by deleting elements, keeping order.
      Matching each element of `a` against its leftmost occurrence in `b`
      finds such a deletion whenever one exists. */
  ghost predicate IsSubsequence<T>(a: seq<T>, b: seq<T>)
    decreases |b|
  {
    |a| == 0 ||
    (|b| > 0 && if a[0] == b[0] then IsSubsequence(a[1..], b[1..]) else IsSubsequence(a, b[1..]))
  }

  /** Every number names a page of a `total`-page document. */
  predicate PageNumbers(order: seq<int>, total: nat)
  {
    forall i :: 0 <= i < |order| ==> 1 <= order[i] <= total
  }

  /** `[p for p in order if 1 <= p <= total]`: the numbers that name a page
      of a `total`-page document, in their original order and with their
      repetitions. */
  function KeepInRange(order: seq<int>, total: nat): (kept: seq<int>)
    ensures PageNumbers(kept, total)
    ensures forall v :: 1 <= v <= total ==> multiset(kept)[v] == multiset(order)[v]
    ensures IsSubsequence(kept, order)
    decreases |order|
  {
    if |order| == 0 then []
    else
      var rest := KeepInRange(order[1..], total);
      assert order == [order[0]] + order[1..];
      if 1 <= order[0] <= total then
        var kept := [order[0]] + rest;
        assert kept[1..] == rest;
        kept
      else rest
  }

  /** A list already inside the document passes the filter unchanged. */
  lemma {:induction false} KeepInRangeAll(order: seq<int>, total: nat)
    requires PageNumbers(order, total)
    ensures KeepInRange(order, total) == order
    decreases |order|
  {
    if |order| > 0 {
      KeepInRangeAll(order[1..], total);
    }
  }

  /** Filtering twice is filtering once. */
  lemma KeepInRangeIdempotent(order: seq<int>, total: nat)
    ensures KeepInRange(KeepInRange(order, total), total) == KeepInRange(order, total)
  {
    KeepInRangeAll(KeepInRange(order, total), total);
  }

  /** The filter works element by element: filtering a concatenation is
      concatenating the filtered parts. */
  lemma {:induction false} KeepInRangeAppend(a: seq<int>, b: seq<int>, total: nat)
    ensures KeepInRange(a + b, total) == KeepInRange(a, total) + KeepInRange(b, total)
    decreases |a|
  {
    if |a| == 0 {
      assert a + b == b;
    } else {
      assert (a + b)[0] == a[0];
      assert (a + b)[1..] == a[1..] + b;
      KeepInRangeAppend(a[1..], b, total);
    }
  }

  /** Every number in the filtered list is a number of the input, and the
      filtered list is empty exactly when no input number names a page. */
  lemma KeepInRangeEmpty(order: seq<int>, total: nat)
    ensures |KeepInRange(order, total)| == 0 <==>
      forall i :: 0 <= i < |order| ==> !(1 <= order[i] <= total)
  {
    var kept := KeepInRange(order, total);
    if |kept| > 0 {
      assert kept[0] in multiset(kept);
      assert kept[0] in multiset(order);
      var i :| 0 <= i < |order| && order[i] == kept[0];
    }
  }

  /** Output page `i` is source page `order[i] - 1`, for every position. */
  function Assemble<P>(src: seq<P>, order: seq<int>): (out: seq<P>)
    requires PageNumbers(order, |src|)
    ensures |out| == |order|
    ensures forall i :: 0 <= i < |order| ==> out[i] == src[order[i] - 1]
    decreases |order|
  {
    if |order| == 0 then [] else [src[order[0] - 1]] + Assemble(src, order[1..])
  }

  /** Selecting pages `1..n` of an `n`-page document gives it back. */
  lemma AssembleIdentity<P>(src: seq<P>)
    ensures PageNumbers(Interval(1, |src|), |src|)
    ensures Assemble(src, Interval(1, |src|)) == src
  {
    AssembleInOrder(src, Interval(1, |src|));
  }

  /** An order that lists every page once, first to last, is the identity. */
  lemma AssembleInOrder<P>(src: seq<P>, order: seq<int>)
    requires |order| == |src| && forall i :: 0 <= i < |order| ==> order[i] == i + 1
    ensures PageNumbers(order, |src|)
    ensures Assemble(src, order) == src
  {
    var out := Assemble(src, order);
    assert |out| == |src|;
    assert forall i :: 0 <= i < |src| ==> out[i] == src[order[i] - 1] == src[i];
  }

  /** Reordering twice is reordering once by the composed order: applying
      `second` to the result of `first` picks the same pages as applying
      `second` to `first` itself and then using that as the order. */
  lemma AssembleCompose<P>(src: seq<P>, first: seq<int>, second: seq<int>)
    requires PageNumbers(first, |src|) && PageNumbers(second, |first|)
    ensures PageNumbers(Assemble(first, second), |src|)
    ensures Assemble(Assemble(src, first), second) == Assemble(src, Assemble(first, second))
  {
    var mid := Assemble(src, first);
    var order := Assemble(first, second);
    assert PageNumbers(order, |src|) by {
      forall i | 0 <= i < |order| ensures 1 <= order[i] <= |src| {
        assert order[i] == first[second[i] - 1];
      }
    }
    var lhs := Assemble(mid, second);
    var rhs := Assemble(src, order);
    forall i | 0 <= i < |second|
      ensures lhs[i] == rhs[i]
    {
      assert lhs[i] == mid[second[i] - 1] == src[first[second[i] - 1] - 1];
      assert rhs[i] == src[order[i] - 1];
    }
  }

  /** Assembly works position by position over a concatenated order. */
  lemma AssembleAppend<P>(src: seq<P>, a: seq<int>, b: seq<int>)
    requires PageNumbers(a, |src|) && PageNumbers(b, |src|)
    ensures PageNumbers(a + b, |src|)
    ensures Assemble(src, a + b) == Assemble(src, a) + Assemble(src, b)
  {
    var ab := a + b;
    assert PageNumbers(ab, |src|) by {
      forall i | 0 <= i < |ab| ensures 1 <= ab[i] <= |src| {
        if i >= |a| {
          assert ab[i] == b[i - |a|];
        }
      }
    }
    var lhs := Assemble(src, ab);
    var rhs := Assemble(src, a) + Assemble(src, b);
    forall i | 0 <= i < |ab|
      ensures lhs[i] == rhs[i]
    {
      if i < |a| {
        assert lhs[i] == src[a[i] - 1];
      } else {
        assert ab[i] == b[i - |a|];
        assert lhs[i] == src[b[i - |a|] - 1];
      }
    }
  }
}

=== FILE: text.dfy ===
/** The character-level pieces the page-range parser is built on: splitting
    on a one-character separator as Python's `str.split(sep)` does, the
    whitespace trimming and base-ten reading done by `int()`, and decimal
    rendering as the inverse of that reading. */
module Text {
  import opened Wrappers

  /* ---------------------------------------------------------------------- */
  /* Splitting and joining                                                   */
  /* ---------------------------------------------------------------------- */

  /** `sep.join(parts)`: the pieces with one separator between neighbours. */
  function Join(parts: seq<string>, sep: char): string
  {
    if |parts| == 0 then ""
    else if |parts| == 1 then parts[0]
    else parts[0] + [sep] + Join(parts[1..], sep)
  }

  /** How many times `c` occurs in `s`. */
  function Occurrences(s: string, c: char): nat
    decreases |s|
  {
    if |s| == 0 then 0 else (if s[0] == c then 1 else 0) + Occurrences(s[1..], c)
  }

  /** `s.split(sep)` for a one-character separator: the maximal runs between
      occurrences of `sep`, so there is always one more piece than there are
      separators, and an empty string yields one empty piece. */
  function Split(s: string, sep: char): (parts: seq<string>)
    ensures |parts| >= 1
    decreases |s|
  {
    if |s| == 0 then [""]
    else
      var rest := Split(s[1..], sep);
      if s[0] == sep then [""] + rest
      else [[s[0]] + rest[0]] + rest[1..]
  }

  /** There is one more piece than there are separators. */
  lemma {:induction false} SplitCount(s: string, sep: char)
    ensures |Split(s, sep)| == Occurrences(s, sep) + 1
    decreases |s|
  {
    if |s| > 0 {
      SplitCount(s[1..], sep);
    }
  }

  /** No piece of a split contains the separator. */
  lemma {:induction false} SplitPiecesFree(s: string, sep: char)
    ensures forall i :: 0 <= i < |Split(s, sep)| ==> sep !in Split(s, sep)[i]
    decreases |s|
  {
    if |s| > 0 {
      SplitPiecesFree(s[1..], sep);
    }
  }

  lemma JoinCons(p: string, rest: seq<string>, sep: char)
    requires |rest| >= 1
    ensures Join([p] + rest, sep) == p + [sep] + Join(rest, sep)
  {
    assert ([p] + rest)[1..] == rest;
  }

  /** Joining the pieces of a split gives back the original text. */
  lemma {:induction false} JoinSplit(s: string, sep: char)
    ensures Join(Split(s, sep), sep) == s
    decreases |s|
  {
    if |s| > 0 {
      var rest := Split(s[1..], sep);
      JoinSplit(s[1..], sep);
      if s[0] == sep {
        JoinCons("", rest, sep);
        assert s == [s[0]] + s[1..];
      } else if |rest| == 1 {
        assert Join(rest, sep) == rest[0];
        assert s == [s[0]] + s[1..];
      } else {
        JoinCons([s[0]] + rest[0], rest[1..], sep);
        assert rest == [rest[0]] + rest[1..];
        JoinCons(rest[0], rest[1..], sep);
        assert s == [s[0]] + s[1..];
      }
    }
  }

  /** A text without the separator is a single piece. */
  lemma {:induction false} SplitFree(p: string, sep: char)
    requires sep !in p
    ensures Split(p, sep) == [p]
    decreases |p|
  {
    if |p| > 0 {
      SplitFree(p[1..], sep);
      assert p == [p[0]] + p[1..];
    }
  }

  /** One step of splitting: a leading separator closes an empty piece;
      any other character joins the first piece of the rest. */
  lemma SplitCons(c: char, t: string, sep: char)
    ensures var rest := Split(t, sep);
      Split([c] + t, sep) == if c == sep then [""] + rest else [[c] + rest[0]] + rest[1..]
  {
    assert ([c] + t)[0] == c;
    assert ([c] + t)[1..] == t;
  }

  /** Splitting distributes over a separator: the pieces of `a + sep + b`
      are the pieces of `a` followed by the pieces of `b`. */
  lemma {:induction false} SplitAppend(a: string, b: string, sep: char)
    ensures Split(a + [sep] + b, sep) == Split(a, sep) + Split(b, sep)
    decreases |a|
  {
    if |a| == 0 {
      assert a + [sep] + b == [sep] + b;
      SplitCons(sep, b, sep);
    } else {
      var c, t := a[0], a[1..];
      assert a == [c] + t;
      assert a + [sep] + b == [c] + (t + [sep] + b);
      SplitAppend(t, b, sep);
      SplitAppendStep(c, t, b, sep);
    }
  }

  /** The inductive step of `SplitAppend`: putting one more character in
      front keeps the pieces of `b` at the end. */
  lemma SplitAppendStep(c: char, t: string, b: string, sep: char)
    requires Split(t + [sep] + b, sep) == Split(t, sep) + Split(b, sep)
    ensures Split([c] + (t + [sep] + b), sep) == Split([c] + t, sep) + Split(b, sep)
  {
    if c == sep {
      SplitAppendSepStep(t, b, sep);
    } else {
      SplitAppendCharStep(c, t, b, sep);
    }
  }

  lemma SplitAppendSepStep(t: string, b: string, sep: char)
    requires Split(t + [sep] + b, sep) == Split(t, sep) + Split(b, sep)
    ensures Split([sep] + (t + [sep] + b), sep) == Split([sep] + t, sep) + Split(b, sep)
  {
    var x := t + [sep] + b;
    var rt, rb := Split(t, sep), Split(b, sep);
    SplitCons(sep, x, sep);
    SplitCons(sep, t, sep);
    assert [""] + (rt + rb) == ([""] + rt) + rb;
  }

  lemma SplitAppendCharStep(c: char, t: string, b: string, sep: char)
    requires c != sep
    requires Split(t + [sep] + b, sep) == Split(t, sep) + Split(b, sep)
    ensures Split([c] + (t + [sep] + b), sep) == Split([c] + t, sep) + Split(b, sep)
  {
    var x := t + [sep] + b;
    SplitCons(c, x, sep);
    SplitCons(c, t, sep);
    SplitConsJoin(c, Split(t, sep), Split(b, sep));
  }

  /** The list step behind `SplitAppend`: gluing a character onto the first
      piece commutes with appending further pieces. */
  lemma SplitConsJoin(c: char, rt: seq<string>, rb: seq<string>)
    requires |rt| >= 1
    ensures [[c] + (rt + rb)[0]] + (rt + rb)[1..] == ([[c] + rt[0]] + rt[1..]) + rb
  {
    assert (rt + rb)[0] == rt[0];
    assert (rt + rb)[1..] == rt[1..] + rb;
  }

  /** Splitting the join of separator-free pieces gives back the pieces. */
  lemma {:induction false} SplitJoin(parts: seq<string>, sep: char)
    requires |parts| >= 1
    requires forall i :: 0 <= i < |parts| ==> sep !in parts[i]
    ensures Split(Join(parts, sep), sep) == parts
    decreases |parts|
  {
    SplitFree(parts[0], sep);
    if |parts| > 1 {
      SplitJoin(parts[1..], sep);
      SplitAppend(parts[0], Join(parts[1..], sep), sep);
      assert parts == [parts[0]] + parts[1..];
    }
  }

  /* ---------------------------------------------------------------------- */
  /* Whitespace                                                              */
  /* ---------------------------------------------------------------------- */

  /** The characters `int()` skips around a number in ASCII text: tab,
      line feed, vertical tab, form feed, carriage return and space. The
      information separators (28-31) are not among them: `int()` rejects
      them although `str.isspace()` accepts them. */
  predicate IsSpace(c: char)
  {
    9 <= c as int <= 13 || c == ' '
  }

  predicate AllSpace(s: string)
  {
    forall i :: 0 <= i < |s| ==> IsSpace(s[i])
  }

  /** Drops leading whitespace: the longest all-space prefix goes. */
  function TrimStart(s: string): (r: string)
    ensures |r| <= |s| && r == s[|s| - |r|..]
    ensures AllSpace(s[..|s| - |r|])
    ensures |r| > 0 ==> !IsSpace(r[0])
    decreases |s|
  {
    if |s| > 0 && IsSpace(s[0]) then TrimStart(s[1..]) else s
  }

  /** Drops trailing whitespace: the longest all-space suffix goes. */
  function TrimEnd(s: string): (r: string)
    ensures |r| <= |s| && r == s[..|r|]
    ensures AllSpace(s[|r|..])
    ensures |r| > 0 ==> !IsSpace(r[|r| - 1])
    decreases |s|
  {
    if |s| > 0 && IsSpace(s[|s| - 1]) then TrimEnd(s[..|s| - 1]) else s
  }

  function Strip(s: string): string
  {
    TrimEnd(TrimStart(s))
  }

  lemma {:induction false} TrimStartPadded(pad: string, t: string)
    requires AllSpace(pad)
    requires |t| > 0 && !IsSpace(t[0])
    ensures TrimStart(pad + t) == t
    decreases |pad|
  {
    if |pad| > 0 {
      assert (pad + t)[1..] == pad[1..] + t;
      TrimStartPadded(pad[1..], t);
    } else {
      assert pad + t == t;
    }
  }

  lemma {:induction false} TrimEndPadded(t: string, pad: string)
    requires AllSpace(pad)
    requires |t| > 0 && !IsSpace(t[|t| - 1])
    ensures TrimEnd(t + pad) == t
    decreases |pad|
  {
    if |pad| > 0 {
      assert (t + pad)[..|t + pad| - 1] == t + pad[..|pad| - 1];
      TrimEndPadded(t, pad[..|pad| - 1]);
    } else {
      assert t + pad == t;
    }
  }

  /** Whitespace around a text that starts and ends with something else is
      exactly what stripping removes. */
  lemma StripPadded(lead: string, t: string, trail: string)
    requires AllSpace(lead) && AllSpace(trail)
    requires |t| > 0 && !IsSpace(t[0]) && !IsSpace(t[|t| - 1])
    ensures Strip(lead + t + trail) == t
  {
    assert lead + t + trail == lead + (t + trail);
    TrimStartPadded(lead, t + trail);
    TrimEndPadded(t, trail);
  }

  /** A text of whitespace only strips to nothing. */
  lemma StripBlank(s: string)
    requires AllSpace(s)
    ensures Strip(s) == ""
  {
  }

  /* ---------------------------------------------------------------------- */
  /* Base-ten numerals                                                       */
  /* ---------------------------------------------------------------------- */

  predicate IsDigit(c: char)
  {
    '0' <= c <= '9'
  }

  predicate AllDigits(s: string)
  {
    forall i :: 0 <= i < |s| ==> IsDigit(s[i])
  }

  function DigitValue(c: char): nat
    requires IsDigit(c)
  {
    c as int - '0' as int
  }

  function DigitChar(d: nat): (c: char)
    requires d < 10
    ensures IsDigit(c) && DigitValue(c) == d
  {
    ('0' as int + d) as char
  }

  /** The number a string of ASCII digits denotes, most significant first. */
  function DecimalValue(ds: string): nat
    requires AllDigits(ds)
    decreases |ds|
  {
    if |ds| == 0 then 0
    else DecimalValue(ds[..|ds| - 1]) * 10 + DigitValue(ds[|ds| - 1])
  }

  /** `str(n)` for a natural number: the canonical numeral, which reads back
      as `n` and has no leading zero. */
  function Decimal(n: nat): (ds: string)
    ensures |ds| >= 1 && AllDigits(ds)
    ensures DecimalValue(ds) == n
    ensures ds[0] == '0' ==> ds == "0"
    decreases n
  {
    if n < 10 then [DigitChar(n)]
    else
      var prefix := Decimal(n / 10);
      var ds := prefix + [DigitChar(n % 10)];
      assert ds[..|ds| - 1] == prefix;
      ds
  }

  /** A stripped numeral: an optional `+` or `-` followed by one or more
      ASCII digits. */
  function ReadSigned(t: string): (r: Option<int>)
    ensures r.Some? && '-' !in t ==> r.value >= 0
  {
    if |t| > 0 && (t[0] == '+' || t[0] == '-') then
      var body := t[1..];
      if |body| > 0 && AllDigits(body) then
        var v: int := DecimalValue(body);
        Some(if t[0] == '-' then -v else v)
      else None
    else if |t| > 0 && AllDigits(t) then
      Some(DecimalValue(t))
    else None
  }

  /** `int(s)` in base ten: optional surrounding whitespace, an optional
      `+` or `-`, then one or more ASCII digits; anything else is rejected. */
  function ParseInt(s: string): (r: Option<int>)
    ensures r.Some? && '-' !in s ==> r.value >= 0
  {
    var t := Strip(s);
    var lead := TrimStart(s);
    assert forall i :: 0 <= i < |t| ==> t[i] == s[|s| - |lead| + i];
    ReadSigned(t)
  }

  /** Reading back a rendered number, with any whitespace around it, gives
      the number. */
  lemma ParseDecimal(lead: string, n: nat, trail: string)
    requires AllSpace(lead) && AllSpace(trail)
    ensures ParseInt(lead + Decimal(n) + trail) == Some(n)
  {
    var ds := Decimal(n);
    assert IsDigit(ds[0]) && IsDigit(ds[|ds| - 1]);
    StripPadded(lead, ds, trail);
    ReadDecimal(n);
  }

  lemma ReadDecimal(n: nat)
    ensures ReadSigned(Decimal(n)) == Some(n)
  {
    var ds := Decimal(n);
    assert IsDigit(ds[0]);
  }

  lemma ReadMinusDecimal(n: nat)
    ensures ReadSigned("-" + Decimal(n)) == Some(-(n as int))
  {
    var t := "-" + Decimal(n);
    assert t[1..] == Decimal(n);
  }

  lemma ParseCanonical(n: nat)
    ensures ParseInt(Decimal(n)) == Some(n)
  {
    ParseDecimal("", n, "");
    assert "" + Decimal(n) + "" == Decimal(n);
  }

  /** A leading minus sign negates the number read. */
  lemma ParseNegativeDecimal(lead: string, n: nat, trail: string)
    requires AllSpace(lead) && AllSpace(trail)
    ensures ParseInt(lead + "-" + Decimal(n) + trail) == Some(-(n as int))
  {
    var t := "-" + Decimal(n);
    assert lead + "-" + Decimal(n) + trail == lead + t + trail;
    assert t[|t| - 1] == Decimal(n)[|Decimal(n)| - 1];
    StripPadded(lead, t, trail);
    ReadMinusDecimal(n);
  }

  /** Empty or blank text is not a number. */
  lemma ParseBlank(s: string)
    requires AllSpace(s)
    ensures ParseInt(s) == None
  {
    StripBlank(s);
  }

  /** A text that starts with an information separator (28-31) is not a
      number: `int()` does not skip those characters. */
  lemma SeparatorNotSkipped(s: string)
    requires |s| > 0 && 28 <= s[0] as int <= 31
    ensures ParseInt(s) == None
  {
    var t := Strip(s);
    assert TrimStart(s) == s;
    if |t| > 0 {
      assert t[0] == s[0];
    }
  }

  /** `s` spells the integer `v` the way `int()` reads it: whitespace, an
      optional sign, one or more ASCII digits, whitespace. */
  predicate IntegerText(s: string, lead: string, sign: string, ds: string, trail: string, v: int)
  {
    AllSpace(lead) && AllSpace(trail) && (sign == "" || sign == "+" || sign == "-") &&
    |ds| >= 1 && AllDigits(ds) && s == lead + (sign + ds) + trail &&
    v == SignedValue(sign, ds)
  }

  /** The value of digits `ds` after the sign `sign`. */
  function SignedValue(sign: string, ds: string): int
    requires AllDigits(ds)
  {
    if sign == "-" then -(DecimalValue(ds) as int) else DecimalValue(ds)
  }

  /** A sign followed by digits reads as its signed value. */
  lemma ReadSignedValue(sign: string, ds: string)
    requires sign == "" || sign == "+" || sign == "-"
    requires |ds| >= 1 && AllDigits(ds)
    ensures ReadSigned(sign + ds) == Some(SignedValue(sign, ds))
  {
    var t := sign + ds;
    if sign == "" {
      assert t == ds;
      assert IsDigit(ds[0]);
    } else {
      assert t[0] == sign[0];
      assert t[1..] == ds;
    }
  }

  /** What `ReadSigned` accepts is a sign followed by digits. */
  lemma ReadSignedShape(t: string) returns (sign: string, ds: string)
    requires ReadSigned(t).Some?
    ensures sign == "" || sign == "+" || sign == "-"
    ensures |ds| >= 1 && AllDigits(ds) && t == sign + ds
    ensures ReadSigned(t).value == SignedValue(sign, ds)
  {
    if t[0] == '+' || t[0] == '-' {
      sign, ds := t[..1], t[1..];
      assert sign == [t[0]];
    } else {
      sign, ds := "", t;
    }
  }

  /** Leading whitespace is all that `TrimStart` removes. */
  lemma TrimStartParts(s: string) returns (lead: string)
    ensures AllSpace(lead) && s == lead + TrimStart(s)
  {
    var u := TrimStart(s);
    lead := s[..|s| - |u|];
    assert s == s[..|s| - |u|] + s[|s| - |u|..];
  }

  /** Trailing whitespace is all that `TrimEnd` removes. */
  lemma TrimEndParts(s: string) returns (trail: string)
    ensures AllSpace(trail) && s == TrimEnd(s) + trail
  {
    var t := TrimEnd(s);
    trail := s[|t|..];
    assert s == s[..|t|] + s[|t|..];
  }

  /** Stripping removes whitespace only, from both ends. */
  lemma StripParts(s: string) returns (lead: string, trail: string)
    ensures AllSpace(lead) && AllSpace(trail)
    ensures s == lead + Strip(s) + trail
  {
    lead := TrimStartParts(s);
    trail := TrimEndParts(TrimStart(s));
    Regroup(lead, Strip(s), trail);
  }

  lemma Regroup<T>(a: seq<T>, b: seq<T>, c: seq<T>)
    ensures a + (b + c) == a + b + c
  {
  }

  /** Every text of that shape is read, leading zeros and a `+` included. */
  lemma ParseIntAccepts(lead: string, sign: string, ds: string, trail: string)
    requires AllSpace(lead) && AllSpace(trail)
    requires sign == "" || sign == "+" || sign == "-"
    requires |ds| >= 1 && AllDigits(ds)
    ensures ParseInt(lead + (sign + ds) + trail) == Some(SignedValue(sign, ds))
  {
    var t := sign + ds;
    assert !IsSpace(t[0]) && !IsSpace(t[|t| - 1]) by {
      assert t[|t| - 1] == ds[|ds| - 1];
      assert IsDigit(ds[0]) && IsDigit(ds[|ds| - 1]);
    }
    StripPadded(lead, t, trail);
    ReadSignedValue(sign, ds);
  }

  /** Every text `int()` reads has that shape, so all other text is
      rejected. */
  lemma ParseIntShape(s: string)
    requires ParseInt(s).Some?
    ensures exists lead, sign, ds, trail :: IntegerText(s, lead, sign, ds, trail, ParseInt(s).value)
  {
    var t := Strip(s);
    assert ParseInt(s) == ReadSigned(t);
    var lead, trail := StripParts(s);
    var sign, ds := ReadSignedShape(t);
    assert IntegerText(s, lead, sign, ds, trail, ReadSigned(t).value);
  }

  /** `int(s)` is `v` exactly when `s` spells `v`. */
  lemma ParseIntExact(s: string, v: int)
    ensures ParseInt(s) == Some(v) <==>
      exists lead, sign, ds, trail :: IntegerText(s, lead, sign, ds, trail, v)
  {
    if ParseInt(s) == Some(v) {
      ParseIntShape(s);
    }
    if exists lead, sign, ds, trail :: IntegerText(s, lead, sign, ds, trail, v) {
      var lead, sign, ds, trail :| IntegerText(s, lead, sign, ds, trail, v);
      ParseIntAccepts(lead, sign, ds, trail);
    }
  }
}

=== FILE: transformer.dfy ===
/** The four whole-document operations of the PDF toolbox in app.py:
    unlock, lock, merge, and extract / reorder. A document is its sequence
    of pages, of an opaque type `P`; the PDF library is reduced to what the
    operations observe of it (whether a file parses, whether it is
    encrypted, what its `decrypt` answers, and its pages). Each operation
    answers with a `Response`: `Idle` while a required input is missing,
    `Rejected` with the reason when it stops with an error message, or
    `Produced` with the document offered for download. */
module Transformer {
  import opened Wrappers
  import opened Text
  import opened RangeSpec
  import opened Selection

  /** Why an operation stopped without a document. */
  datatype Error =
    | UnreadablePdf        // the library could not parse the file or read its pages
    | WrongPassword        // decrypt answered 0 for the given password
    | PasswordMismatch     // the password and its confirmation differ
    | InvalidRangeSyntax   // a token of the page-range specification is malformed
    | EmptySelection       // no number in the specification names a page

  /** A file's protection as the library reports it: `decrypt(pw)` is the
      library's answer to a password, 0 meaning it opens nothing. */
  datatype Encryption = Plain | Encrypted(decrypt: string -> int)

  /** An uploaded file as the library opens it. */
  datatype PdfFile<P> = Corrupt | Pdf(pages: seq<P>, encryption: Encryption)

  /** A written document: its pages and, when locked, its password. */
  datatype Document<P> = Document(pages: seq<P>, password: Option<string>)

  datatype Response<P> = Idle | Rejected(error: Error) | Produced(doc: Document<P>)

  /** The pages of a file opened with no password given. On an encrypted
      file the library tries the empty password when opening it, and its
      pages can be read only if that succeeded. */
  function ReadPages<P>(f: PdfFile<P>): (r: Result<seq<P>, Error>)
    ensures r.Success? <==> f.Pdf? && (f.encryption.Encrypted? ==> f.encryption.decrypt("") != 0)
    ensures r.Success? ==> r.value == f.pages
    ensures r.Failure? ==> r.error == UnreadablePdf
  {
    match f
    case Corrupt => Failure(UnreadablePdf)
    case Pdf(pages, Plain) => Success(pages)
    case Pdf(pages, Encrypted(decrypt)) =>
      if decrypt("") != 0 then Success(pages) else Failure(UnreadablePdf)
  }

  predicate Readable<P>(f: PdfFile<P>)
  {
    ReadPages(f).Success?
  }

  /* ---------------------------------------------------------------------- */
  /* Unlock                                                                  */
  /* ---------------------------------------------------------------------- */

  /** Removes the password: runs once a file and a non-empty password are
      given; an encrypted file whose `decrypt` answers 0 is refused, and
      otherwise every page is copied, in order, into an unprotected
      document. */
  function Unlock<P>(upload: Option<PdfFile<P>>, password: string): (r: Response<P>)
    ensures r.Idle? <==> upload.None? || password == ""
    ensures r.Rejected? ==> r.error == if upload.value.Corrupt? then UnreadablePdf else WrongPassword
    ensures !r.Idle? && upload.value.Pdf? ==>
      (r.Rejected? <==> upload.value.encryption.Encrypted? && upload.value.encryption.decrypt(password) == 0)
    ensures r.Produced? ==> upload.value.Pdf? && r.doc == Document(upload.value.pages, None)
  {
    if upload.None? || password == "" then Idle
    else
      match upload.value
      case Corrupt => Rejected(UnreadablePdf)
      case Pdf(pages, Plain) => Produced(Document(pages, None))
      case Pdf(pages, Encrypted(decrypt)) =>
        if decrypt(password) == 0 then Rejected(WrongPassword)
        else Produced(Document(pages, None))
  }

  /* ---------------------------------------------------------------------- */
  /* Lock                                                                    */
  /* ---------------------------------------------------------------------- */

  /** Adds a password: runs once a file, a password and its confirmation
      are given; differing passwords are refused before the file is read;
      otherwise the readable pages are copied, in order, into a document
      protected by the password. */
  function Lock<P>(upload: Option<PdfFile<P>>, password: string, confirm: string): (r: Response<P>)
    ensures r.Idle? <==> upload.None? || password == "" || confirm == ""
    ensures !r.Idle? && password != confirm ==> r == Rejected(PasswordMismatch)
    ensures !r.Idle? && password == confirm ==>
      (r.Produced? <==> Readable(upload.value)) &&
      (r.Rejected? ==> r.error == UnreadablePdf)
    ensures r.Produced? ==>
      r.doc == Document(ReadPages(upload.value).value, Some(password)) && password == confirm
  {
    if upload.None? || password == "" || confirm == "" then Idle
    else if password != confirm then Rejected(PasswordMismatch)
    else
      match ReadPages(upload.value)
      case Failure(e) => Rejected(e)
      case Success(pages) => Produced(Document(pages, Some(password)))
  }

  /* ---------------------------------------------------------------------- */
  /* Password bytes                                                          */
  /* ---------------------------------------------------------------------- */

  type Byte = b: int | 0 <= b < 256

  /** Every character fits in one byte. */
  predicate Latin1(pw: string)
  {
    forall i :: 0 <= i < |pw| ==> pw[i] as int < 256
  }

  /** The UTF-8 bytes of one character. */
  function Utf8Char(c: char): (bytes: seq<Byte>)
    ensures 1 <= |bytes| <= 4
    ensures |bytes| == 1 <==> c as int < 0x80
    ensures |bytes| == 1 ==> bytes[0] == c as int
  {
    var n := c as int;
    if n < 0x80 then [n]
    else if n < 0x800 then [0xC0 + n / 0x40, 0x80 + n % 0x40]
    else if n < 0x1_0000 then [0xE0 + n / 0x1000, 0x80 + n / 0x40 % 0x40, 0x80 + n % 0x40]
    else [0xF0 + n / 0x4_0000, 0x80 + n / 0x1000 % 0x40, 0x80 + n / 0x40 % 0x40, 0x80 + n % 0x40]
  }

  /** The UTF-8 encoding of a text: never shorter than the text, and longer
      exactly when some character lies outside ASCII. */
  function Utf8(s: string): (bytes: seq<Byte>)
    ensures |bytes| >= |s|
    ensures |bytes| == |s| <==> forall i :: 0 <= i < |s| ==> s[i] as int < 0x80
    decreases |s|
  {
    if |s| == 0 then []
    else
      var rest := Utf8(s[1..]);
      assert forall i :: 1 <= i < |s| ==> s[i] == s[1..][i - 1];
      Utf8Char(s[0]) + rest
  }

  /** The bytes the library makes of a password: Latin-1 when every
      character fits in one byte, UTF-8 otherwise. */
  function EncodePassword(pw: string): (bytes: seq<Byte>)
    ensures Latin1(pw) ==> |bytes| == |pw| && forall i :: 0 <= i < |pw| ==> bytes[i] == pw[i] as int
    ensures !Latin1(pw) ==> |bytes| > |pw|
  {
    if Latin1(pw) then seq(|pw|, i requires 0 <= i < |pw| && Latin1(pw) => pw[i] as int as Byte)
    else Utf8(pw)
  }

  /** The padding string of Algorithm 2 in ISO 32000-1, section 7.6.3.3. */
  const PasswordPad: seq<Byte> := [
    0x28, 0xBF, 0x4E, 0x5E, 0x4E, 0x75, 0x8A, 0x41, 0x64, 0x00, 0x4E, 0x56, 0xFF, 0xFA, 0x01, 0x08,
    0x2E, 0x2E, 0x00, 0xB6, 0xD0, 0x68, 0x3E, 0x80, 0x2F, 0x0C, 0xA9, 0xFE, 0x64, 0x53, 0x69, 0x7A]

  /** Step (a) of Algorithm 2 in ISO 32000-1, section 7.6.3.3: a password
      is cut to 32 bytes, or filled up to 32 bytes from the padding string.
      The RC4 key, and so whether a password opens the file, depends on
      these 32 bytes only. */
  function PadPassword(bytes: seq<Byte>): (padded: seq<Byte>)
    ensures |padded| == 32
    ensures forall i :: 0 <= i < 32 ==>
      padded[i] == if i < |bytes| then bytes[i] else PasswordPad[i - |bytes|]
  {
    if |bytes| >= 32 then bytes[..32] else bytes + PasswordPad[..32 - |bytes|]
  }

  /** Two different passwords of at most 31 bytes never pad alike: the
      padding string's first byte occurs nowhere else in it. */
  lemma PadPasswordDistinct(a: seq<Byte>, b: seq<Byte>)
    requires |a| <= 31 && |b| <= 31 && a != b
    ensures PadPassword(a) != PadPassword(b)
  {
    var pa, pb := PadPassword(a), PadPassword(b);
    if |a| == |b| {
      var i :| 0 <= i < |a| && a[i] != b[i];
      assert pa[i] != pb[i];
    } else if |a| < |b| {
      assert pb[|b|] == PasswordPad[0] == 0x28;
      assert pa[|b|] == PasswordPad[|b| - |a|] != 0x28;
    } else {
      assert pa[|a|] == PasswordPad[0] == 0x28;
      assert pb[|a|] == PasswordPad[|a| - |b|] != 0x28;
    }
  }

  /** The padding string read as text, one character per byte. */
  function PadText(): (t: string)
    ensures |t| == 32 && forall i :: 0 <= i < 32 ==> t[i] as int == PasswordPad[i]
  {
    seq(32, i requires 0 <= i < 32 => PasswordPad[i] as char)
  }

  /** The lock password as the writer pads it: as text, cut to 32
      characters or filled up from the padding text, before any encoding. */
  function PadLockText(pw: string): (t: string)
    ensures |t| == 32
    ensures forall i :: 0 <= i < 32 ==>
      t[i] == if i < |pw| then pw[i] else PadText()[i - |pw|]
  {
    if |pw| >= 32 then pw[..32] else pw + PadText()[..32 - |pw|]
  }

  /** The first 32 characters of a password each fit in one byte. */
  predicate Latin1Head(pw: string)
  {
    forall i :: 0 <= i < |pw| && i < 32 ==> pw[i] as int < 256
  }

  /** The key input the writer derives from the lock password: the padded
      text, encoded afterwards. It is 32 bytes exactly when the padded text
      is Latin-1, that is when the password's first 32 characters are. */
  function WriterKey(pw: string): (key: seq<Byte>)
    ensures |key| >= 32
    ensures |key| == 32 <==> Latin1Head(pw)
  {
    var t := PadLockText(pw);
    assert Latin1(t) <==> Latin1Head(pw) by {
      if Latin1Head(pw) {
        forall i | 0 <= i < 32 ensures t[i] as int < 256 {
          if i >= |pw| {
            assert t[i] as int == PasswordPad[i - |pw|];
          }
        }
      }
      if Latin1(t) {
        forall i | 0 <= i < |pw| && i < 32 ensures pw[i] as int < 256 {
          assert t[i] == pw[i];
        }
      }
    }
    EncodePassword(t)
  }

  /** For a Latin-1 password the writer's order (pad, then encode) and the
      reader's order (encode, then pad) give the same 32 bytes. */
  lemma WriterKeyMatchesReader(pw: string)
    requires Latin1(pw)
    ensures WriterKey(pw) == PadPassword(EncodePassword(pw))
  {
    var t := PadLockText(pw);
    assert Latin1(t) by {
      forall i | 0 <= i < 32 ensures t[i] as int < 256 {
        if i >= |pw| {
          assert t[i] as int == PasswordPad[i - |pw|];
        }
      }
    }
    var w, r := EncodePassword(t), PadPassword(EncodePassword(pw));
    forall i | 0 <= i < 32 ensures w[i] == r[i] {
      if i >= |pw| {
        assert t[i] as int == PasswordPad[i - |pw|];
      }
    }
  }

  /** The written document opened again. A locked document is encrypted
      with the library's default RC4 method and its password as both user
      and owner password. A password given later opens it exactly when the
      reader's 32 bytes for it equal the writer's key input. */
  function Reopen<P>(doc: Document<P>): (f: PdfFile<P>)
    ensures f.Pdf? && f.pages == doc.pages
    ensures f.encryption.Plain? <==> doc.password.None?
  {
    match doc.password
    case None => Pdf(doc.pages, Plain)
    case Some(pw) =>
      var key := WriterKey(pw);
      Pdf(doc.pages, Encrypted((given: string) => if PadPassword(EncodePassword(given)) == key then 1 else 0))
  }

  /** Locking a readable file with a Latin-1 password and unlocking the
      result with the same password gives back the file's pages, in order,
      unprotected. */
  lemma LockThenUnlock<P>(f: PdfFile<P>, password: string)
    requires password != "" && Readable(f) && Latin1(password)
    ensures Lock(Some(f), password, password).Produced?
    ensures Unlock(Some(Reopen(Lock(Some(f), password, password).doc)), password) ==
      Produced(Document(ReadPages(f).value, None))
  {
    WriterKeyMatchesReader(password);
  }

  /** A password with a character beyond one byte among its first 32 does
      not open the document it locked: the writer encodes its padded text
      as UTF-8, more than the 32 bytes the reader compares. */
  lemma LockedRefusesOwnWidePassword<P>(f: PdfFile<P>, password: string)
    requires password != "" && Readable(f) && !Latin1Head(password)
    ensures Lock(Some(f), password, password).Produced?
    ensures Unlock(Some(Reopen(Lock(Some(f), password, password).doc)), password) == Rejected(WrongPassword)
  {
  }

  /** A document locked with a one-byte-per-character password of at most
      31 characters refuses every other such password. */
  lemma LockedRejectsOtherPassword<P>(f: PdfFile<P>, password: string, other: string)
    requires password != "" && other != "" && other != password && Readable(f)
    requires Latin1(password) && Latin1(other) && |password| <= 31 && |other| <= 31
    ensures Unlock(Some(Reopen(Lock(Some(f), password, password).doc)), other) == Rejected(WrongPassword)
  {
    WriterKeyMatchesReader(password);
    PadPasswordDistinct(EncodePassword(password), EncodePassword(other));
  }

  /** Only the first 32 bytes of a password count: a document locked with a
      long password also opens with any other password that starts with the
      same 32 one-byte characters. */
  lemma LockedAcceptsSharedPrefix<P>(f: PdfFile<P>, password: string, other: string)
    requires Readable(f) && Latin1(password) && Latin1(other)
    requires |password| >= 32 && |other| >= 32 && password[..32] == other[..32]
    ensures Unlock(Some(Reopen(Lock(Some(f), password, password).doc)), other) ==
      Produced(Document(ReadPages(f).value, None))
  {
    WriterKeyMatchesReader(password);
    var a, b := EncodePassword(password), EncodePassword(other);
    assert a[..32] == b[..32] by {
      forall i | 0 <= i < 32 ensures a[i] == b[i] {
        assert password[i] == password[..32][i];
      }
    }
  }

  /* ---------------------------------------------------------------------- */
  /* Merge                                                                   */
  /* ---------------------------------------------------------------------- */

  /** The pages of readable files, file after file in the given order. */
  function Concat<P>(files: seq<PdfFile<P>>): seq<P>
    requires forall i :: 0 <= i < |files| ==> Readable(files[i])
    decreases |files|
  {
    if |files| == 0 then []
    else
      assert Readable(files[0]);
      ReadPages(files[0]).value + Concat(files[1..])
  }

  /** The number of pages of readable files together. */
  function PageCount<P>(files: seq<PdfFile<P>>): nat
    requires forall i :: 0 <= i < |files| ==> Readable(files[i])
    decreases |files|
  {
    if |files| == 0 then 0
    else
      assert Readable(files[0]);
      |ReadPages(files[0]).value| + PageCount(files[1..])
  }

  /** Concatenation respects splitting the file list anywhere. */
  lemma {:induction false} ConcatAppend<P>(a: seq<PdfFile<P>>, b: seq<PdfFile<P>>)
    requires forall i :: 0 <= i < |a| ==> Readable(a[i])
    requires forall i :: 0 <= i < |b| ==> Readable(b[i])
    ensures forall i :: 0 <= i < |a + b| ==> Readable((a + b)[i])
    ensures Concat(a + b) == Concat(a) + Concat(b)
    decreases |a|
  {
    var ab := a + b;
    assert forall i :: 0 <= i < |ab| ==> Readable(ab[i]) by {
      forall i | 0 <= i < |ab| ensures Readable(ab[i]) {
        if i >= |a| {
          assert ab[i] == b[i - |a|];
        }
      }
    }
    if |a| == 0 {
      assert ab == b;
    } else {
      assert ab[0] == a[0];
      assert ab[1..] == a[1..] + b;
      ConcatAppend(a[1..], b);
      var head := ReadPages(a[0]).value;
      assert Concat(ab) == head + Concat(ab[1..]);
      assert Concat(a) == head + Concat(a[1..]);
    }
  }

  /** The merged document has as many pages as the files together. */
  lemma {:induction false} ConcatLength<P>(files: seq<PdfFile<P>>)
    requires forall i :: 0 <= i < |files| ==> Readable(files[i])
    ensures |Concat(files)| == PageCount(files)
    decreases |files|
  {
    if |files| > 0 {
      ConcatLength(files[1..]);
    }
  }

  /** Merging two files puts the first one's pages before the second's. */
  lemma ConcatTwo<P>(a: PdfFile<P>, b: PdfFile<P>)
    requires Readable(a) && Readable(b)
    ensures Concat([a, b]) == ReadPages(a).value + ReadPages(b).value
  {
    assert [a, b][1..] == [b];
    assert [b][1..] == [];
    assert Concat([b]) == ReadPages(b).value + Concat([]);
  }

  /** Merges the uploaded files in upload order: each file is opened in
      turn and all its pages are appended; the first file that cannot be
      read stops the merge with no document. Nothing happens while no file
      is uploaded. */
  method Merge<P>(uploads: seq<PdfFile<P>>) returns (r: Response<P>)
    ensures r.Idle? <==> |uploads| == 0
    ensures r.Rejected? <==> exists i :: 0 <= i < |uploads| && !Readable(uploads[i])
    ensures r.Rejected? ==> r.error == UnreadablePdf
    ensures r.Produced? ==>
      (forall i :: 0 <= i < |uploads| ==> Readable(uploads[i])) &&
      r.doc == Document(Concat(uploads), None) &&
      |r.doc.pages| == PageCount(uploads)
  {
    if |uploads| == 0 {
      return Idle;
    }
    var merged: seq<P> := [];
    var i := 0;
    while i < |uploads|
      invariant 0 <= i <= |uploads|
      invariant forall j :: 0 <= j < i ==> Readable(uploads[j])
      invariant merged == Concat(uploads[..i])
    {
      var read := ReadPages(uploads[i]);
      if read.Failure? {
        return Rejected(read.error);
      }
      assert uploads[..i + 1] == uploads[..i] + [uploads[i]];
      ConcatAppend(uploads[..i], [uploads[i]]);
      assert [uploads[i]][1..] == [];
      merged := merged + read.value;
      i := i + 1;
    }
    assert uploads[..i] == uploads;
    ConcatLength(uploads);
    return Produced(Document(merged, None));
  }

  /* ---------------------------------------------------------------------- */
  /* Extract / reorder                                                       */
  /* ---------------------------------------------------------------------- */

  /** The document for a list of page numbers: numbers outside the source
      are dropped, and output page `i` is source page `kept[i] - 1`. When
      nothing is left there is no document. */
  function SelectPages<P>(src: seq<P>, order: seq<int>): (r: Response<P>)
    ensures !r.Idle?
    ensures r.Rejected? <==> forall i :: 0 <= i < |order| ==> !(1 <= order[i] <= |src|)
    ensures r.Rejected? ==> r.error == EmptySelection
    ensures r.Produced? ==>
      var kept := KeepInRange(order, |src|);
      r.doc.password == None && |r.doc.pages| == |kept| > 0 &&
      forall i :: 0 <= i < |kept| ==> r.doc.pages[i] == src[kept[i] - 1]
    ensures r.Produced? ==> forall i :: 0 <= i < |r.doc.pages| ==> r.doc.pages[i] in src
  {
    var kept := KeepInRange(order, |src|);
    KeepInRangeEmpty(order, |src|);
    if |kept| == 0 then Rejected(EmptySelection)
    else Produced(Document(Assemble(src, kept), None))
  }

  /** Builds a document from a page-range specification over the source
      pages: the specification is read into page numbers, which select the
      pages. A malformed specification stops with no document; nothing
      happens while the specification is empty. */
  function ExtractReorder<P>(src: seq<P>, spec: string): (r: Response<P>)
    ensures r.Idle? <==> spec == ""
    ensures r == Rejected(InvalidRangeSyntax) <==>
      spec != "" && exists t :: t in Split(spec, ',') && ParseToken(t).Failure?
    ensures r == Rejected(EmptySelection) <==>
      spec != "" && ParseSpec(spec).Success? &&
      forall k :: 0 <= k < |ParseSpec(spec).value| ==> !(1 <= ParseSpec(spec).value[k] <= |src|)
    ensures r.Rejected? ==> r.error == InvalidRangeSyntax || r.error == EmptySelection
    ensures r.Produced? <==>
      spec != "" && ParseSpec(spec).Success? &&
      exists k :: 0 <= k < |ParseSpec(spec).value| && 1 <= ParseSpec(spec).value[k] <= |src|
    ensures r.Produced? ==>
      spec != "" && ParseSpec(spec).Success? && r.doc.password == None && |r.doc.pages| > 0 &&
      r.doc.pages == Assemble(src, KeepInRange(ParseSpec(spec).value, |src|))
  {
    if spec == "" then Idle
    else
      match ParseSpec(spec)
      case Failure(_) => Rejected(InvalidRangeSyntax)
      case Success(order) => SelectPages(src, order)
  }

  /** Page numbers that all lie inside the document select exactly those
      pages, in that order. */
  lemma SelectInRange<P>(src: seq<P>, order: seq<int>)
    requires |order| >= 1 && PageNumbers(order, |src|)
    ensures SelectPages(src, order) == Produced(Document(Assemble(src, order), None))
  {
    KeepInRangeAll(order, |src|);
    assert order[0] == KeepInRange(order, |src|)[0];
  }

  /** The span `1-n` over an `n`-page document reproduces it. */
  lemma ExtractWholeDocument<P>(src: seq<P>)
    requires |src| >= 1
    ensures ExtractReorder(src, RenderSpec([Span(1, |src|)])) == Produced(Document(src, None))
  {
    var sels := [Span(1, |src|)];
    ParseRenderedSpec(sels);
    assert ExpandAll(sels) == Interval(1, |src|) + ExpandAll([]);
    assert ExpandAll(sels) == Interval(1, |src|);
    AssembleIdentity(src);
    SelectInRange(src, Interval(1, |src|));
    assert RenderSpec(sels) != "" by {
      assert RenderAll(sels) == [Render(sels[0])];
    }
  }

  /** Extracting with a rendered list of selectors keeps the in-range
      numbers of their expansion, in order and with repetitions. */
  lemma ExtractRendered<P>(src: seq<P>, sels: seq<Selector>)
    requires |sels| >= 1
    requires exists i :: 0 <= i < |ExpandAll(sels)| && 1 <= ExpandAll(sels)[i] <= |src|
    ensures ExtractReorder(src, RenderSpec(sels)).Produced?
    ensures ExtractReorder(src, RenderSpec(sels)).doc.pages ==
      Assemble(src, KeepInRange(ExpandAll(sels), |src|))
  {
    ParseRenderedSpec(sels);
    assert RenderSpec(sels) != "" by {
      if RenderSpec(sels) == "" {
        EmptySpecRejected();
      }
    }
  }
}

=== FILE: wrappers.dfy ===
/** Failure-compatible wrappers used throughout the model: an optional value
    and a value-or-error result. Both work with Dafny's `:-` operator. */
module Wrappers {

  datatype Option<+T> = None | Some(value: T) {

    predicate IsFailure() {
      None?
    }

    function PropagateFailure<U>(): Option<U>
      requires None?
    {
      None
    }

    function Extract(): T
      requires Some?
    {
      value
    }
  }

  datatype Result<+R, +E> = Success(value: R) | Failure(error: E) {

    predicate IsFailure() {
      Failure?
    }

    function PropagateFailure<U>(): Result<U, E>
      requires Failure?
    {
      Failure(error)
    }

    function Extract(): R
      requires Success?
    {
      value
    }
  }
}
